=== FILE: README.md ===
# PixiMoroxel8AI host, modelled in Dafny

PixiMoroxel8AI is a MoroboxAI game host. It loads a game module described by
a header and binds the module's optional hooks. It renders the game at a
fixed virtual resolution into an offscreen back buffer, and stretches that
buffer onto the player's real viewport. It isolates faults in the game's
`tick` hook. The repository also ships a sample game (a 5x5 grid of bunny
sprites) and a sample agent.

This project is a functional model of that core. The host is an immutable
record (`HostState.Host`). Each operation is a pure function that returns the
new host and a trace of `Event`s. Draws, ticker registration, resizes, error
logs and the calls of the `tick` and `loadState` hooks become events. Calls of
`saveState` and `getStateForAgent` produce no event: they are modelled by the
object they return and the host they leave. The modules follow the source:

| module | models |
|---|---|
| `Resolution` | the constructor's aspect-ratio arithmetic, `split("/")` and `parseInt` on digit strings, `Math.round` |
| `HostState` | the host's fields, its `width`/`height`/`SWIDTH`/`SHEIGHT` getters, the constructor |
| `Proxy` | `VMProxy`: read-through getters and the one write-through field |
| `Games` | `IGame`, the record of optional hooks |
| `Loader` | `loadGame`, `initGame` and the host's `init` |
| `Dispatcher` | `play`, `pause`, `_tick`, `tick` with its render pass, `saveState`, `loadState`, `getStateForAgent` |
| `Traces` | counting and filtering trace events |
| `Sessions` | arbitrary sequences of player calls and the lifecycle properties over them |
| `Agent` | `sample/agent.ts` |
| `SampleGame` | `reset` of `sample/game.ts` |

Some behaviours of the source that the model keeps as written:

- The constructor does not validate the aspect ratio (src/index.ts:246-255),
  so the resolver takes a well-formed ratio as a precondition. Nothing bounds
  the result from below: for "1000/1" the constructor computes a height of 0
  (`Resolution.DegenerateRatio`).
- The width is held at 128 when A >= B. Otherwise the height is held at 128.
- `play()` clears the tick-error latch. A fault can therefore be logged once
  before the first `play()` and once after it (`Sessions.PlayRearmsFaultLog`).
- `pause()` never clears the playing flag. A later `play()` is therefore a
  no-op, and a paused host never runs frames again (`Sessions.PauseIsFinal`).
- A missing `main` rejects `loadGame`. `initGame` has no rejection handler, so
  the boot never settles: `Loader.InitGame` returns `Pending` with nothing done.
  It also stays `Pending` when the promise of the game's `load` never
  resolves; `init` and `load` have run by then, and their writes are kept.
- Every hook can reach the proxy the game kept from `init`, so any hook may
  write the auto-clear flag. `tick` reads the flag only after its hook has
  returned, so a write made during `tick` already decides that frame's
  render pass (`Dispatcher.TickSeesHookWrite`).
- Before `reset()` the agent's `goingLeft` is `undefined`, which is falsy. It
  is modelled as `Agent.Unset` with `goingLeft == false`.

## Model

| member | source | states |
|---|---|---|
| Resolution.Resolve | src/index.ts:243-262 | with no aspect ratio the display is 128x128; for A >= B the width is 128 and the height is the nearest integer to 128*B/A; otherwise the height is 128 and the width is the nearest integer to 128*A/B; neither side exceeds 128 |
| Resolution.RoundDiv | src/index.ts:251-253 | the integer formula is `Math.round` of a non-negative quotient: the result r satisfies r - 1/2 <= n/d < r + 1/2 |
| Resolution.NearestIsUnique | src/index.ts:251-253 | at most one integer satisfies that rounding condition, so the resolver's result is determined by it |
| Resolution.Split | src/index.ts:248 | `split("/")` gives at least one piece, no piece contains the separator, and joining the pieces restores the string |
| Resolution.SplitJoin | src/index.ts:248 | splitting joined separator-free pieces gives the pieces back (the other direction of the round trip) |
| Resolution.ShowNat | src/index.ts:248 | the decimal spelling of n is a digit string that `parseInt` reads back as n |
| Resolution.ParseRatio | src/index.ts:248 | a well-formed "A/B" yields two positive integers |
| Resolution.RatioRoundTrip | src/index.ts:248 | writing "A/B" for positive A and B and parsing it gives back (A, B) |
| Resolution.WideScreen | src/index.ts:250-251 | "16/9" gives a 128x72 display |
| Resolution.TallScreen | src/index.ts:252-253 | "9/16" gives a 72x128 display |
| Resolution.DegenerateRatio | src/index.ts:250-251 | for "1000/1" the constructor computes a height of 0: nothing enforces a lower bound |
| HostState.NewHost | src/index.ts:222-271 | the back buffer has the resolved size and is what `width`/`SWIDTH` and `height`/`SHEIGHT` report (128x128 without a ratio); the host starts idle with the latch clear, auto-clear on and no ticker registered; it resizes once to the player's viewport |
| Proxy.Read | src/index.ts:154-196 | each proxy getter returns the host's current value; SWIDTH/SHEIGHT agree with the host's own width/height |
| Proxy.WriteAutoClear | src/index.ts:197-199 | the setter stores the value in the host and changes no other host field |
| Proxy.ReadAfterWrite | src/index.ts:193-199 | a write through the proxy is seen by the next read, and no other getter changes |
| Proxy.WriteWhatWasRead | src/index.ts:193-199 | writing back the value just read leaves the host unchanged |
| Proxy.ApplyWrite | src/index.ts:197-199 | a hook's write through the proxy changes only the auto-clear flag, to the written value; no write leaves the host unchanged |
| Proxy.ViewIsExact | src/index.ts:154-200 | two hosts look alike through the proxy exactly when they agree on header, handles, back buffer and auto-clear; the lifecycle flags are invisible to the game |
| Loader.LoadGame | src/index.ts:73-106 | a game in the options wins and nothing is fetched; otherwise a missing `main` rejects with the source's message; otherwise the script at `main` is fetched and evaluated |
| Loader.InitGame | src/index.ts:114-138 | a rejected `loadGame` leaves the boot unsettled with the host unchanged and no steps; otherwise the steps begin with `loadGame`'s own (fetch and evaluation for a script), the boot is unsettled exactly when the game's `load` promise never resolves, and in both outcomes init is called exactly when the game has one and load is called exactly when present, and the host changes only in the auto-clear flag, which ends as load's write if it made one, else init's, else unchanged; load's completion is recorded only for a settled boot; the game is resolved exactly when the boot settles, as the last step |
| Loader.RunHooks | src/index.ts:122-136 | after loading, whose steps stay at the front: unsettled exactly when load hangs; init and load are called exactly when present; only the auto-clear flag changes, to the last hook write; completion and resolution are recorded only when load settles or is absent |
| Loader.LoadSeesInitWrite | src/index.ts:124-131 | when init writes the auto-clear flag, load is started against a proxy that already shows that value |
| Loader.HangingLoadKeepsInit | src/index.ts:124-133 | a game whose init turns auto-clear off and whose load never settles binds no game, but init and load have been called and the flag is off; load never completes and the view is never attached |
| Loader.BootOrder | src/index.ts:78-135 | whether or not the boot settles: a script named by `main` is fetched and then evaluated, and a game from the options is never evaluated; evaluation precedes init, init precedes load, load starts before it completes, and it completes before the game resolves |
| Loader.Init | src/index.ts:274-293 | the game is bound exactly when `initGame` settles, and it is the game `initGame` resolved with; the host is the one `initGame` left, settled or not; an unsettled boot keeps its steps and never attaches the view; a settled one attaches the view right after resolution |
| Dispatcher.Play | src/index.ts:322-335 | a no-op while playing; otherwise it sets playing, clears the latch, registers the ticker, changes nothing else, and resizes before registering |
| Dispatcher.Pause | src/index.ts:337-342 | the ticker is unregistered and nothing else changes; in particular the playing flag survives |
| Dispatcher.Frame | src/index.ts:295-300 | the frame callback forwards to the player's ticker only when one is installed, and leaves the host unchanged |
| Dispatcher.CallTickHook | src/index.ts:385-394 | a throw from the game's tick is caught; it is logged only if the latch was clear, and then sets it; whatever the hook wrote through the proxy stays written, whether it returned or threw; nothing else changes and nothing is drawn |
| Dispatcher.RenderPass | src/index.ts:400-410 | the clear sprite is drawn into the back buffer only with auto-clear; then the back stage goes into the back buffer, then the back-buffer sprite onto the screen |
| Dispatcher.Tick | src/index.ts:384-411 | only the latch and the hook's own proxy write can change the host; at most one error is logged, and only on a throw with the latch clear; the hook is called once if present; no draw without `render`, and with it the trace ends with exactly the render pass for the auto-clear flag as the hook left it, so the hook call and its log come before every draw |
| Dispatcher.TickSeesHookWrite | src/index.ts:384-411 | a tick hook that turns auto-clear off through the proxy gets a frame without the clear draw: only the back stage and the back-buffer sprite are drawn |
| Dispatcher.StateHooksKeepLifecycle | src/index.ts:366-382 | whatever the state hooks do, the playing flag, the latch, the ticker registration and the resolution stay as they were |
| Dispatcher.SaveState | src/index.ts:366-370 | the hook's result, with the host as the hook left it through the proxy, when the game defines it; `{}` and an unchanged host otherwise |
| Dispatcher.GetStateForAgent | src/index.ts:378-382 | the hook's result, with the host as the hook left it through the proxy, when the game defines it; `{}` and an unchanged host otherwise |
| Dispatcher.LoadState | src/index.ts:372-376 | the state is forwarded exactly when the game defines the hook; the host changes only by the hook's proxy write, and not at all without the hook |
| Sessions.Run | src/index.ts:322-382 | over any sequence of calls, the virtual resolution, header and handles never change, and a playing host stays playing |
| Sessions.RunKeepsConsistent | src/index.ts:322-342 | a registered ticker always belongs to a playing host |
| Sessions.TickerAddedAtMostOnce | src/index.ts:322-335 | over any sequence of calls the ticker is added at most once, and never once the host is playing |
| Sessions.PauseIsFinal | src/index.ts:323-342 | after a playing host is paused, no call re-registers the ticker and no frame reaches the player's ticker |
| Sessions.FaultLogBound | src/index.ts:384-394 | faults logged over any sequence are bounded by 1 if the latch is clear plus 1 if the host is not yet playing |
| Sessions.FaultyGameLogsOnce | src/index.ts:384-394 | a game whose tick always throws, ticked n >= 1 times with the latch clear, is called n times and has exactly one fault logged |
| Sessions.PlayRearmsFaultLog | src/index.ts:327-328 | a tick fault before and after the first `play()` is logged twice, because `play()` clears the latch |
| Sessions.PauseBeforePlay | src/index.ts:337-342 | pausing a host whose ticker is not registered changes nothing |
| Sessions.FreshHostAddsTickerOnce | src/index.ts:222-225 | from the constructor, any session adds the ticker at most once, logs at most two faults and keeps the ticker/playing invariant |
| Agent.Reset | sample/agent.ts:9-11 | reset makes the agent rotate left |
| Agent.UnsetPressesRight | sample/agent.ts:7-30 | before `reset()` the agent presses right below 90, and from 90 on lets go and turns to going left |
| Agent.Inputs | sample/agent.ts:13-31 | the output is one of `{left}`, `{right}`, `{}` and never both directions; left only above -90, right only below 90, `{}` only at 90 or more; the four transitions of the goingLeft/angle table; afterwards the agent is going left exactly when it did not press right |
| Agent.Run | sample/agent.ts:13-31 | over any angle sequence, every output is one of the three, left only above -90 and right only below 90, and the final state is going left exactly when the last output was not right |
| Agent.LeftUntilMinus90 | sample/agent.ts:14-20 | after reset, the agent presses left for as long as the angle stays above -90 |
| SampleGame.Bunnies | sample/game.ts:61-67 | sprite i of the loop sits at column i mod 5 and row i div 5, 40 pixels apart |
| SampleGame.Grid | sample/game.ts:61-67 | the container holds 25 sprites laid out row by row: the sprite in row r and column c is the one at index 5r + c, at (40c, 40r) |
| SampleGame.GridPositions | sample/game.ts:61-66 | every coordinate is 0, 40, 80, 120 or 160, and the 25 positions are pairwise distinct |
| SampleGame.RemoveChild | sample/game.ts:52-54 | removing a child drops one occurrence (the multiset loses exactly that child), and an absent child leaves the stage unchanged |
| SampleGame.RemoveChildIsOthers | sample/game.ts:52-54 | on a stage without duplicate children, removal drops exactly that child and keeps the others in order |
| SampleGame.ResetGame | sample/game.ts:51-77 | the game owns a new container with the 25-sprite grid, at (SWIDTH/2, SHEIGHT/2) read through the proxy; it is the stage's last child, present once; the other children keep their order except for the removed previous container |

## Left out

- The rendering library itself is not modelled: `Application`, `RenderTexture`, `Sprite`, `renderer.render`, and `destroy` in `stop()`. Draws are trace events, and `stop()` is not modelled because it only destroys library objects.
- Downloading the main script and evaluating it with `new Function` are replaced by a `fetchAndEvaluate` parameter. It maps the script's path to the hooks the script defines.
- A failed fetch and a throw from `init` are not modelled. The source forwards neither.
- A throw while the fetched script is evaluated (src/index.ts:91-102) is not modelled. It would leave the boot unsettled, like a rejected `loadGame`.
- A `load()` promise that rejects (src/index.ts:129-133) is modelled like one that never resolves: `initGame` waits on neither outcome, so both give `Pending`.
- The fetched script receives the raw host as its `vm` parameter, not the proxy (src/index.ts:93-102). The script's top-level code and every hook it defines can therefore reach the whole host, including `play()`, `_isPlaying` and `_displayedTickError`. That access is not modelled: the model's hooks see and change the host only through the proxy.
- Sessions.TickerAddedAtMostOnce: holds for games whose hooks act on the host only through the proxy; a fetched game can call `play()` on the raw `vm`.
- Sessions.PauseIsFinal: holds for games whose hooks act on the host only through the proxy; a fetched game can re-register the ticker through the raw `vm`.
- Sessions.FaultLogBound: holds for games whose hooks act on the host only through the proxy; a fetched game can clear the latch through the raw `vm`.
- A game's own state between calls is not modelled. Hooks are functions of their arguments and the proxy view. The sample game keeps `_vm`, `container` and `bunnyTexture` in module variables (sample/game.ts:6-9), and its `tick` throws until `reset` has set `container` (sample/game.ts:51-58, 86). The Sessions properties (`Sessions.Run`, `Sessions.FaultyGameLogsOnce`, `Sessions.PlayRearmsFaultLog` and the rest) are stated for such memoryless hooks; a game whose hook outcome depends on its earlier calls is outside them.
- A throw from `saveState`, `loadState` or `getStateForAgent` propagates to the player uncaught (src/index.ts:366-382). It is not modelled.
- HostState.NewHost: assumes the back buffer's texture keeps exactly the requested size. The rendering library replaces a zero texture dimension (as for "1000/1") with a default, which the model does not follow.
- Agent.Inputs: the angle is a `real`, so NaN is not modelled. In the source a NaN angle fails both comparisons, so the agent returns `{}` and turns to going left.
- Promise plumbing is flattened into an ordered trace of boot steps.
- Resize scale factors are not modelled as numbers. They are floating-point `real / virtual` divisions handed to the library, so `Resized` records the real and virtual sizes instead.
- Console output other than the tick-fault log is not modelled: the hook list and the computed size are only printed.
- Resolution.Resolve: the aspect-ratio precondition covers only ratios whose first two `/`-pieces are non-empty digit strings with positive values. The code's `parseInt` paths for other strings (NaN, signs, whitespace) are not modelled.
- Resolution.RoundDiv: rounds the exact rational 128*B/A. The source rounds a floating-point quotient, which gives the same integer while A and B stay below 2^40.
- The `_app === undefined` guards in `play`/`pause` are not modelled. The constructor always creates the application and nothing unsets it.
- The constants `help()`, `speed` and the `scale` getter (SCREEN_SCALE) are not modelled: they carry no logic.
- The exported `init`/`boot` wrappers are not modelled. They only construct the host and call its `init`, which `Loader.Init` covers.
- The sample game's `init` and `load` are not modelled. They store the proxy and load a texture through the library's loader.
- The sample game's `tick` rotation and the pivot computed from library bounds are not modelled. Both are floating-point library state.
- `sample/game.js` is not modelled: it is a generated bundle of `sample/game.ts`.
- The build files (`gulpfile.js`, `vite.config.js`) and the unused constants of `src/constants.ts` are not modelled.

=== FILE: agent.dfy ===
/**
 * The sample agent: it presses left until the game's angle reaches -90
 * degrees, then presses right until it reaches 90 degrees, then lets go for
 * one frame and starts over.
 */
module Agent {
  import Sdk

  /** The agent's one piece of state: whether it is currently rotating left. */
  datatype Agent = Agent(goingLeft: bool)

  /** Before `reset()` the flag is unset, which the agent treats as false. */
  const Unset := Agent(false)

  /** `reset()`: start by rotating left. */
  function Reset(): (a: Agent)
    ensures a.goingLeft
  {
    Agent(true)
  }

  /** The three inputs the agent ever returns: `{left}`, `{right}` or `{}`. */
  predicate IsAgentOutput(i: Sdk.Inputs) {
    i == Sdk.LeftOnly || i == Sdk.RightOnly || i == Sdk.NoInput
  }

  /**
   * `inputs(state)`: the buttons to press for the game's current angle, and
   * the agent's state afterwards.
   */
  function Inputs(a: Agent, angle: real): (r: (Agent, Sdk.Inputs))
    ensures IsAgentOutput(r.1)
    ensures !(r.1.left && r.1.right)
    ensures r.1.left ==> angle > -90.0
    ensures r.1.right ==> angle < 90.0
    ensures r.1 == Sdk.NoInput ==> angle >= 90.0
    ensures a.goingLeft && angle > -90.0 ==> r == (a, Sdk.LeftOnly)
    ensures a.goingLeft && angle <= -90.0 ==> r == (Agent(false), Sdk.RightOnly)
    ensures !a.goingLeft && angle < 90.0 ==> r == (a, Sdk.RightOnly)
    ensures !a.goingLeft && angle >= 90.0 ==> r == (Agent(true), Sdk.NoInput)
    ensures r.0.goingLeft <==> r.1 != Sdk.RightOnly
  {
    if a.goingLeft && angle > -90.0 then (a, Sdk.LeftOnly)
    else
      var a' := Agent(false);
      if angle < 90.0 then (a', Sdk.RightOnly)
      else (Agent(true), Sdk.NoInput)
  }

  /**
   * Before `reset()` the agent is not going left: it presses right below 90
   * and lets go from 90 on, after which it is going left as after a reset.
   */
  lemma {:induction false} UnsetPressesRight(angle: real)
    ensures angle < 90.0 ==> Inputs(Unset, angle) == (Unset, Sdk.RightOnly)
    ensures angle >= 90.0 ==> Inputs(Unset, angle) == (Reset(), Sdk.NoInput)
  {
  }

  /** The agent fed a sequence of angles, one per frame: its outputs and final state. */
  function Run(a: Agent, angles: seq<real>): (r: (Agent, seq<Sdk.Inputs>))
    ensures |r.1| == |angles|
    ensures forall i :: 0 <= i < |angles| ==> IsAgentOutput(r.1[i])
    ensures forall i :: 0 <= i < |angles| ==> (r.1[i].left ==> angles[i] > -90.0)
    ensures forall i :: 0 <= i < |angles| ==> (r.1[i].right ==> angles[i] < 90.0)
    ensures |angles| > 0 ==> (r.0.goingLeft <==> r.1[|angles| - 1] != Sdk.RightOnly)
    ensures |angles| == 0 ==> r.0 == a
    decreases |angles|
  {
    if |angles| == 0 then (a, [])
    else
      var (a', out) := Inputs(a, angles[0]);
      var (final, outs) := Run(a', angles[1..]);
      (final, [out] + outs)
  }

  /** Started from `reset()`, the agent presses left for as long as the angle stays above -90. */
  lemma {:induction false} LeftUntilMinus90(angles: seq<real>)
    requires forall i :: 0 <= i < |angles| ==> angles[i] > -90.0
    ensures forall i :: 0 <= i < |angles| ==> Run(Reset(), angles).1[i] == Sdk.LeftOnly
    decreases |angles|
  {
    if |angles| > 0 {
      LeftUntilMinus90(angles[1..]);
      var outs := Run(Reset(), angles).1;
      assert outs == [Sdk.LeftOnly] + Run(Reset(), angles[1..]).1;
      forall i | 0 <= i < |angles|
        ensures outs[i] == Sdk.LeftOnly
      {
        if i > 0 {
          assert outs[i] == Run(Reset(), angles[1..]).1[i - 1];
        }
      }
    }
  }
}

=== FILE: base.dfy ===
/** Optional values and settled promise results, shared by the host model. */
module Base {

  /** A value that may be absent: an optional field or an optional hook. */
  datatype Option<+T> = None | Some(value: T)

  /** The settled value of a promise: resolved with a value or rejected with a reason. */
  datatype Result<+R, +E> = Success(value: R) | Failure(error: E)
}

/** Types borrowed from the game SDK that both the host and the sample agent use. */
module Sdk {

  /**
   * The buttons a controller presses during one frame. A key that is absent
   * from the SDK's input object is a button that is not pressed, so `{}` is
   * `NoInput`.
   */
  datatype Inputs = Inputs(up: bool, down: bool, left: bool, right: bool)

  const NoInput := Inputs(false, false, false, false)
  const LeftOnly := Inputs(false, false, true, false)
  const RightOnly := Inputs(false, false, false, true)

  /** A plain object such as saveState returns, as key/value pairs; `{}` is `map[]`. */
  type Obj = map<string, string>
}

=== FILE: dispatcher.dfy ===
/**
 * The host's per-frame operations: play, pause, the ticker callback, the
 * protected tick with its render pass, and the state hooks the player calls.
 */
module Dispatcher {
  import opened Base
  import Sdk
  import opened HostState
  import opened Games
  import opened Traces
  import Proxy

  /**
   * `play()`: a no-op while playing. Otherwise mark the host playing, clear the
   * tick-error latch, resize to the player's current viewport and add the frame
   * callback to the ticker, in that order.
   */
  function Play(h: Host, realWidth: nat, realHeight: nat): (r: Step)
    ensures h.isPlaying ==> r == Step(h, [])
    ensures !h.isPlaying ==> r.host.isPlaying && !r.host.displayedTickError && r.host.tickerRegistered
    ensures !h.isPlaying ==>
              r.host.(isPlaying := false, displayedTickError := h.displayedTickError,
                      tickerRegistered := h.tickerRegistered) == h
    ensures !h.isPlaying ==> r.trace == [Resized(realWidth, realHeight, h.SWIDTH(), h.SHEIGHT()), TickerAdded]
  {
    if h.isPlaying then Step(h, [])
    else
      var h' := h.(isPlaying := true, displayedTickError := false);
      var resized := ResizeEvent(h', realWidth, realHeight);
      Step(h'.(tickerRegistered := true), [resized, TickerAdded])
  }

  /**
   * `pause()`: remove the frame callback from the ticker (a no-op for the
   * ticker if it was not added). The playing flag is left as it is.
   */
  function Pause(h: Host): (r: Step)
    ensures !r.host.tickerRegistered
    ensures r.host.isPlaying == h.isPlaying
    ensures r.host.(tickerRegistered := h.tickerRegistered) == h
    ensures r.trace == [TickerRemoved]
  {
    Step(h.(tickerRegistered := false), [TickerRemoved])
  }

  /** `_tick(delta)`: forward the frame to the player's ticker callback when one is installed. */
  function Frame(h: Host, delta: real, playerTicker: bool): (r: Step)
    ensures r.host == h
    ensures Count(r.trace, IsPlayerTick) == (if playerTicker then 1 else 0)
    ensures forall i :: 0 <= i < |r.trace| ==> r.trace[i] == PlayerTickerCalled(delta)
  {
    Step(h, if playerTicker then [PlayerTickerCalled(delta)] else [])
  }

  /**
   * The compositing pass: clear the back buffer when auto-clear is on, draw the
   * back stage into it, then draw the back-buffer sprite to the screen.
   */
  function RenderPass(autoClear: bool): (t: seq<Event>)
    ensures Draws(t) == t
    ensures forall i :: 0 <= i < |t| ==> t[i].Draw?
    ensures |t| == (if autoClear then 3 else 2)
    ensures t[|t| - 1] == Draw(BackBufferSprite, Screen)
    ensures t[|t| - 2] == Draw(BackStage, BackBufferTexture)
    ensures Draw(ClearSprite, BackBufferTexture) in t <==> autoClear
  {
    var t := (if autoClear then [Draw(ClearSprite, BackBufferTexture)] else [])
             + [Draw(BackStage, BackBufferTexture), Draw(BackBufferSprite, Screen)];
    assert Draws([Draw(BackStage, BackBufferTexture)]) == [Draw(BackStage, BackBufferTexture)];
    assert t[..|t| - 1] == (if autoClear then [Draw(ClearSprite, BackBufferTexture)] else [])
                           + [Draw(BackStage, BackBufferTexture)];
    if autoClear then
      DrawsAppend([Draw(ClearSprite, BackBufferTexture)], [Draw(BackStage, BackBufferTexture)]);
      t
    else
      t
  }

  /**
   * The protected call of the game's tick hook: a throw is caught here, logged
   * only when the latch is clear, and sets the latch. Whatever the hook wrote
   * through the proxy stays written, whether it returned or threw.
   */
  function CallTickHook(h: Host, game: Option<Game>, inputs: seq<Sdk.Inputs>, delta: real, render: bool): (r: Step)
    ensures r.host.(displayedTickError := h.displayedTickError)
            == Proxy.ApplyWrite(h, TickWrite(game, inputs, delta, render, Proxy.Read(h)))
    ensures r.host.displayedTickError <==>
              h.displayedTickError || TickThrows(game, inputs, delta, render, Proxy.Read(h))
    ensures Count(r.trace, IsErrorLog) ==
              (if TickThrows(game, inputs, delta, render, Proxy.Read(h)) && !h.displayedTickError then 1 else 0)
    ensures Count(r.trace, IsGameTick) == (if game.Some? && game.value.tick.Some? then 1 else 0)
    ensures Draws(r.trace) == []
    ensures forall i :: 0 <= i < |r.trace| ==> r.trace[i].GameTickCalled? || r.trace[i].ErrorLogged?
  {
    var called := [GameTickCalled(inputs, delta, render)];
    assert Draws(called) == [] by {
      assert called[..0] == [];
    }
    CountOne(called[0], IsErrorLog);
    CountOne(called[0], IsGameTick);
    match TickOutcome(game, inputs, delta, render, Proxy.Read(h))
    case None => Step(h, [])
    case Some(Returned(w)) => Step(Proxy.ApplyWrite(h, w), called)
    case Some(Threw(e, w)) =>
      var h' := Proxy.ApplyWrite(h, w);
      if h.displayedTickError then Step(h', called)
      else
        var t := called + [ErrorLogged(e)];
        assert t[..1] == called;
        Step(h'.(displayedTickError := true), t)
  }

  /**
   * `tick(inputs, delta, render)`: call the game's tick hook when there is one,
   * catching anything it throws; the first throw since the latch was last
   * cleared is logged and sets the latch, later ones are swallowed. With
   * `render` the compositing pass follows, using the auto-clear flag as the
   * hook left it.
   */
  function Tick(h: Host, game: Option<Game>, inputs: seq<Sdk.Inputs>, delta: real, render: bool): (r: Step)
    ensures r.host.(displayedTickError := h.displayedTickError)
            == Proxy.ApplyWrite(h, TickWrite(game, inputs, delta, render, Proxy.Read(h)))
    ensures r.host.displayedTickError <==>
              h.displayedTickError || TickThrows(game, inputs, delta, render, Proxy.Read(h))
    ensures Count(r.trace, IsErrorLog) ==
              (if TickThrows(game, inputs, delta, render, Proxy.Read(h)) && !h.displayedTickError then 1 else 0)
    ensures Count(r.trace, IsGameTick) == (if game.Some? && game.value.tick.Some? then 1 else 0)
    ensures !render ==> Draws(r.trace) == []
    ensures render ==> Draws(r.trace) == RenderPass(r.host.autoClearBackBuffer)
    ensures render ==>
              var p := RenderPass(r.host.autoClearBackBuffer);
              |p| <= |r.trace| && r.trace[|r.trace| - |p|..] == p
    ensures render ==> r.trace[|r.trace| - 1] == Draw(BackBufferSprite, Screen)
    ensures forall i :: 0 <= i < |r.trace| ==> FromTick(r.trace[i])
  {
    var called := CallTickHook(h, game, inputs, delta, render);
    if !render then called else Composite(called)
  }

  /** The compositing pass appended to what a tick hook did, with the flag the hook left. */
  function Composite(s: Step): (r: Step)
    requires Draws(s.trace) == []
    requires forall i :: 0 <= i < |s.trace| ==> FromTick(s.trace[i])
    ensures r.host == s.host
    ensures Count(r.trace, IsErrorLog) == Count(s.trace, IsErrorLog)
    ensures Count(r.trace, IsGameTick) == Count(s.trace, IsGameTick)
    ensures Draws(r.trace) == RenderPass(s.host.autoClearBackBuffer)
    ensures |r.trace| == |s.trace| + |RenderPass(s.host.autoClearBackBuffer)|
    ensures r.trace[|s.trace|..] == RenderPass(s.host.autoClearBackBuffer)
    ensures |r.trace| > 0 && r.trace[|r.trace| - 1] == Draw(BackBufferSprite, Screen)
    ensures forall i :: 0 <= i < |r.trace| ==> FromTick(r.trace[i])
  {
    var pass := RenderPass(s.host.autoClearBackBuffer);
    var t := s.trace + pass;
    assert Draws(t) == pass by {
      DrawsAppend(s.trace, pass);
    }
    assert Count(t, IsErrorLog) == Count(s.trace, IsErrorLog) by {
      CountAppend(s.trace, pass, IsErrorLog);
      CountZero(pass, IsErrorLog);
    }
    assert Count(t, IsGameTick) == Count(s.trace, IsGameTick) by {
      CountAppend(s.trace, pass, IsGameTick);
      CountZero(pass, IsGameTick);
    }
    assert forall i :: 0 <= i < |t| ==> FromTick(t[i]) by {
      AllAppend(s.trace, pass, FromTick);
    }
    Step(s.host, t)
  }

  /**
   * A tick hook that turns auto-clear off through the proxy takes effect in
   * the same frame: only the back stage and the back-buffer sprite are drawn.
   */
  lemma {:induction false} TickSeesHookWrite(h: Host, game: Game, inputs: seq<Sdk.Inputs>, delta: real)
    requires game.tick.Some? && game.tick.value(inputs, delta, true, Proxy.Read(h)) == Returned(Some(false))
    ensures !Tick(h, Some(game), inputs, delta, true).host.autoClearBackBuffer
    ensures Draws(Tick(h, Some(game), inputs, delta, true).trace)
            == [Draw(BackStage, BackBufferTexture), Draw(BackBufferSprite, Screen)]
  {
  }

  /** The answer of a state hook, and the host as the hook left it. */
  datatype Answer = Answer(state: Sdk.Obj, host: Host)

  /** `saveState()`: the game's saved state, or `{}` when the game has no such hook. */
  function SaveState(h: Host, game: Option<Game>): (r: Answer)
    ensures game.Some? && game.value.saveState.Some? ==>
              var (obj, w) := game.value.saveState.value(Proxy.Read(h));
              r.state == obj && r.host == Proxy.ApplyWrite(h, w)
    ensures game.None? || game.value.saveState.None? ==> r == Answer(map[], h)
  {
    if game.Some? && game.value.saveState.Some? then
      var (obj, w) := game.value.saveState.value(Proxy.Read(h));
      Answer(obj, Proxy.ApplyWrite(h, w))
    else Answer(map[], h)
  }

  /** `getStateForAgent()`: the game's state for an agent, or `{}` when the game has no such hook. */
  function GetStateForAgent(h: Host, game: Option<Game>): (r: Answer)
    ensures game.Some? && game.value.getStateForAgent.Some? ==>
              var (obj, w) := game.value.getStateForAgent.value(Proxy.Read(h));
              r.state == obj && r.host == Proxy.ApplyWrite(h, w)
    ensures game.None? || game.value.getStateForAgent.None? ==> r == Answer(map[], h)
  {
    if game.Some? && game.value.getStateForAgent.Some? then
      var (obj, w) := game.value.getStateForAgent.value(Proxy.Read(h));
      Answer(obj, Proxy.ApplyWrite(h, w))
    else Answer(map[], h)
  }

  /**
   * `loadState(state)`: hand the state to the game's hook when there is one;
   * the host changes only by what the hook writes through the proxy.
   */
  function LoadState(h: Host, game: Option<Game>, state: Sdk.Obj): (r: Step)
    ensures game.Some? && game.value.loadState.Some? ==>
              r.host == Proxy.ApplyWrite(h, game.value.loadState.value(state, Proxy.Read(h)))
    ensures game.None? || game.value.loadState.None? ==> r.host == h
    ensures LoadStateForwarded(state) in r.trace <==> game.Some? && game.value.loadState.Some?
    ensures |r.trace| <= 1
  {
    if game.Some? && game.value.loadState.Some? then
      Step(Proxy.ApplyWrite(h, game.value.loadState.value(state, Proxy.Read(h))), [LoadStateForwarded(state)])
    else Step(h, [])
  }

  /**
   * The state hooks never touch the lifecycle: whatever a hook does, the
   * playing flag, the latch, the ticker registration and the resolution stay.
   */
  lemma {:induction false} StateHooksKeepLifecycle(h: Host, game: Option<Game>, state: Sdk.Obj)
    ensures var hs := [SaveState(h, game).host, GetStateForAgent(h, game).host, LoadState(h, game, state).host];
            forall i :: 0 <= i < |hs| ==>
              && hs[i].isPlaying == h.isPlaying && hs[i].displayedTickError == h.displayedTickError
              && hs[i].tickerRegistered == h.tickerRegistered && hs[i].backBuffer == h.backBuffer
  {
  }
}

=== FILE: games.dfy ===
/**
 * IGame: the loaded game as a record of optional hooks. A hook the game does
 * not define is `None`; the host checks presence before every call.
 *
 * A game receives the proxy in `init` and may keep it, so every hook can read
 * the host through the proxy and write its one writable field. Each hook is
 * therefore given the proxy's view at the moment of the call, and its result
 * records the value it leaves in the auto-clear flag (`None` when it writes
 * nothing).
 */
module Games {
  import opened Base
  import Sdk
  import Proxy

  /** How a call to the game's `tick` hook ended, and what it left in the auto-clear flag. */
  datatype TickResult = Returned(write: Option<bool>) | Threw(error: string, write: Option<bool>)

  /**
   * How the promise returned by the game's `load` hook ends: resolved, or never
   * resolved. Either way `write` is what the hook left in the auto-clear flag.
   */
  datatype LoadResult = LoadResolved(write: Option<bool>) | LoadUnsettled(write: Option<bool>)

  /**
   * The hooks a game may define.
   * - `init` is called with the proxy.
   * - `load` starts loading assets; the host waits for its promise.
   * - `saveState` and `getStateForAgent` return an object.
   * - `loadState` receives an object.
   * - `tick` receives the controllers' inputs, the elapsed time and the
   *   render flag, and either returns or throws.
   */
  datatype Game = Game(
    init: Option<Proxy.View -> Option<bool>>,
    load: Option<Proxy.View -> LoadResult>,
    saveState: Option<Proxy.View -> (Sdk.Obj, Option<bool>)>,
    loadState: Option<(Sdk.Obj, Proxy.View) -> Option<bool>>,
    getStateForAgent: Option<Proxy.View -> (Sdk.Obj, Option<bool>)>,
    tick: Option<(seq<Sdk.Inputs>, real, bool, Proxy.View) -> TickResult>)

  /** The outcome of calling the game's tick hook, or `None` when there is no game or no hook. */
  function TickOutcome(game: Option<Game>, inputs: seq<Sdk.Inputs>, delta: real, render: bool, view: Proxy.View)
    : Option<TickResult>
  {
    if game.Some? && game.value.tick.Some? then Some(game.value.tick.value(inputs, delta, render, view)) else None
  }

  /** Whether calling the game's tick with these arguments throws. */
  predicate TickThrows(game: Option<Game>, inputs: seq<Sdk.Inputs>, delta: real, render: bool, view: Proxy.View)
  {
    var o := TickOutcome(game, inputs, delta, render, view);
    o.Some? && o.value.Threw?
  }

  /** What the tick hook leaves in the auto-clear flag, whether it returns or throws. */
  function TickWrite(game: Option<Game>, inputs: seq<Sdk.Inputs>, delta: real, render: bool, view: Proxy.View)
    : Option<bool>
  {
    var o := TickOutcome(game, inputs, delta, render, view);
    if o.Some? then o.value.write else None
  }
}

=== FILE: host_state.dfy ===
/**
 * The state of one PixiMoroxel8AI host and the observable effects of its
 * operations. Calls into the rendering library, the ticker and the console
 * are not performed; each becomes an `Event` appended to a trace.
 */
module HostState {
  import opened Base
  import Sdk
  import Resolution

  /** The fields of the game header the host reads. */
  datatype Header = Header(main: Option<string>, aspectRatio: Option<string>)

  /**
   * Identities of the objects the host exposes but does not model: the
   * rendering-library module, the player, the back stage container, the
   * renderer and the back-buffer texture.
   */
  datatype Handles = Handles(pixi: nat, player: nat, stage: nat, renderer: nat, backBuffer: nat)

  /**
   * The host's fields. `backBuffer` is the size of the offscreen texture, fixed
   * by the constructor; `tickerRegistered` says whether the host's frame
   * callback is currently added to the application ticker.
   */
  datatype Host = Host(
    header: Header,
    handles: Handles,
    backBuffer: Resolution.Size,
    isPlaying: bool,
    displayedTickError: bool,
    autoClearBackBuffer: bool,
    tickerRegistered: bool)
  {
    /** The `width` getter of the player-facing interface. */
    function Width(): nat { backBuffer.width }

    /** The `height` getter of the player-facing interface. */
    function Height(): nat { backBuffer.height }

    /** The `SWIDTH` getter the game sees. */
    function SWIDTH(): nat { backBuffer.width }

    /** The `SHEIGHT` getter the game sees. */
    function SHEIGHT(): nat { backBuffer.height }
  }

  /** Drawable objects handed to the renderer. */
  datatype Node = ClearSprite | BackStage | BackBufferSprite

  /** Where a draw lands: the offscreen back buffer or the real screen. */
  datatype Target = BackBufferTexture | Screen

  datatype Event =
    | Draw(node: Node, target: Target)
    | ErrorLogged(error: string)
    | TickerAdded
    | TickerRemoved
      /** The renderer is resized to the real size and the back-buffer sprite is
          scaled by real / virtual on each axis; the event records both sizes. */
    | Resized(realWidth: nat, realHeight: nat, virtualWidth: nat, virtualHeight: nat)
    | GameTickCalled(inputs: seq<Sdk.Inputs>, delta: real, render: bool)
    | PlayerTickerCalled(delta: real)
    | LoadStateForwarded(state: Sdk.Obj)

  /** The host after an operation, with the events the operation produced. */
  datatype Step = Step(host: Host, trace: seq<Event>)

  /** The `resize` pass for a player viewport of the given real size. */
  function ResizeEvent(h: Host, realWidth: nat, realHeight: nat): Event
  {
    Resized(realWidth, realHeight, h.SWIDTH(), h.SHEIGHT())
  }

  /**
   * The constructor: resolve the virtual resolution from the header, create
   * the back buffer at that size, start idle with auto-clear on, and resize
   * once to the player's viewport.
   */
  function NewHost(header: Header, handles: Handles, playerWidth: nat, playerHeight: nat): (r: Step)
    requires header.aspectRatio.Some? ==> Resolution.WellFormedRatio(header.aspectRatio.value)
    ensures r.host.header == header && r.host.handles == handles
    ensures r.host.Width() == r.host.SWIDTH() == Resolution.Resolve(header.aspectRatio).width
    ensures r.host.Height() == r.host.SHEIGHT() == Resolution.Resolve(header.aspectRatio).height
    ensures header.aspectRatio.None? ==> r.host.SWIDTH() == 128 && r.host.SHEIGHT() == 128
    ensures !r.host.isPlaying && !r.host.displayedTickError && !r.host.tickerRegistered
    ensures r.host.autoClearBackBuffer
    ensures r.trace == [Resized(playerWidth, playerHeight, r.host.SWIDTH(), r.host.SHEIGHT())]
  {
    var h := Host(header, handles, Resolution.Resolve(header.aspectRatio), false, false, true, false);
    Step(h, [ResizeEvent(h, playerWidth, playerHeight)])
  }
}

=== FILE: loader.dfy ===
/**
 * Bringing up the game: choosing where it comes from (loadGame), calling its
 * init and load hooks in order (initGame), and binding it to the host (init).
 * Downloading and evaluating the main script is a parameter: a function from
 * the script's path to the hooks the script defines.
 */
module Loader {
  import opened Base
  import HostState
  import Proxy
  import opened Games

  /** The boot steps the host takes, in the order it takes them. */
  datatype BootEvent =
    | Fetched(path: string)
    | Evaluated
    | InitCalled
    | LoadCalled
    | LoadCompleted
    | GameResolved
    | ViewAttached

  const MissingMain := "header is missing main attribute with the path to your main script"

  datatype Loaded = Loaded(game: Game, trace: seq<BootEvent>)

  /** Every `a` in `t` comes before every `b` in `t`. */
  predicate Precedes(t: seq<BootEvent>, a: BootEvent, b: BootEvent)
  {
    forall i, j :: 0 <= i < |t| && 0 <= j < |t| && t[i] == a && t[j] == b ==> i < j
  }

  /**
   * `loadGame`: a game passed in the host's options wins; otherwise the
   * header must name a main script, which is fetched and evaluated; without
   * one the promise rejects.
   */
  function LoadGame(optionsGame: Option<Game>, main: Option<string>, fetchAndEvaluate: string -> Game)
    : (r: Result<Loaded, string>)
    ensures r.Failure? <==> optionsGame.None? && main.None?
    ensures r.Failure? ==> r.error == MissingMain
    ensures optionsGame.Some? ==> r.Success? && r.value.game == optionsGame.value && r.value.trace == []
    ensures r.Success? && optionsGame.None? ==>
              r.value.game == fetchAndEvaluate(main.value) && r.value.trace == [Fetched(main.value), Evaluated]
  {
    match optionsGame
    case Some(g) => Success(Loaded(g, []))
    case None =>
      match main
      case None => Failure(MissingMain)
      case Some(path) => Success(Loaded(fetchAndEvaluate(path), [Fetched(path), Evaluated]))
  }

  /**
   * The outcome of booting: unsettled, with the host and the steps taken so
   * far, or settled with the game and the host it initialised.
   */
  datatype Boot =
    | Pending(host: HostState.Host, trace: seq<BootEvent>)
    | Ready(game: Game, host: HostState.Host, trace: seq<BootEvent>)

  /** The value the init hook leaves in the proxy's writable field, if it has an init hook that writes. */
  function InitWrite(game: Game, h: HostState.Host): Option<bool>
  {
    if game.init.Some? then game.init.value(Proxy.Read(h)) else None
  }

  /** How the promise of the game's load hook ends when it is started against `h`, if the game has one. */
  function LoadOutcome(game: Game, h: HostState.Host): Option<LoadResult>
  {
    if game.load.Some? then Some(game.load.value(Proxy.Read(h))) else None
  }

  /** The auto-clear flag after init and load: load's write if it made one, else init's, else the old value. */
  function FlagAfterHooks(game: Game, h: HostState.Host): bool
  {
    var w := InitWrite(game, h);
    var o := LoadOutcome(game, Proxy.ApplyWrite(h, w));
    if o.Some? && o.value.write.Some? then o.value.write.value
    else if w.Some? then w.value
    else h.autoClearBackBuffer
  }

  /** Whether the game's load hook is called and its promise never settles. */
  predicate LoadHangs(game: Game, h: HostState.Host)
  {
    var o := LoadOutcome(game, Proxy.ApplyWrite(h, InitWrite(game, h)));
    o.Some? && o.value.LoadUnsettled?
  }

  /**
   * `initGame`: once the game is loaded, call `init` with the proxy, then
   * start `load` and wait for it, then resolve with the game. A rejected
   * loadGame leaves the returned promise unsettled with nothing done; a load
   * promise that never resolves leaves it unsettled after init and load have
   * run.
   */
  function InitGame(h: HostState.Host, optionsGame: Option<Game>, fetchAndEvaluate: string -> Game): (r: Boot)
    ensures optionsGame.None? && h.header.main.None? ==> r == Pending(h, [])
    ensures !(optionsGame.None? && h.header.main.None?) ==>
              var game := LoadGame(optionsGame, h.header.main, fetchAndEvaluate).value.game;
              && (r.Pending? <==> LoadHangs(game, h))
              && (r.Ready? ==> r.game == game)
              && r.host.(autoClearBackBuffer := h.autoClearBackBuffer) == h
              && r.host.autoClearBackBuffer == FlagAfterHooks(game, h)
              && (InitCalled in r.trace <==> game.init.Some?)
              && (LoadCalled in r.trace <==> game.load.Some?)
              && (LoadCompleted in r.trace <==> r.Ready? && game.load.Some?)
    ensures !(optionsGame.None? && h.header.main.None?) ==>
              var loading := LoadGame(optionsGame, h.header.main, fetchAndEvaluate).value.trace;
              |loading| <= |r.trace| && r.trace[..|loading|] == loading
    ensures GameResolved in r.trace <==> r.Ready?
    ensures ViewAttached !in r.trace
    ensures r.Ready? ==> |r.trace| > 0 && r.trace[|r.trace| - 1] == GameResolved
  {
    match LoadGame(optionsGame, h.header.main, fetchAndEvaluate)
    case Failure(_) => Pending(h, [])
    case Success(loaded) => RunHooks(h, loaded.game, loaded.trace)
  }

  /** The part of initGame after loading: init, then load and the wait for it, then resolution. */
  function RunHooks(h: HostState.Host, game: Game, loading: seq<BootEvent>): (r: Boot)
    requires InitCalled !in loading && LoadCalled !in loading && LoadCompleted !in loading
    requires GameResolved !in loading && ViewAttached !in loading
    ensures |loading| <= |r.trace| && r.trace[..|loading|] == loading
    ensures r.Pending? <==> LoadHangs(game, h)
    ensures r.Ready? ==> r.game == game
    ensures r.host.(autoClearBackBuffer := h.autoClearBackBuffer) == h
    ensures r.host.autoClearBackBuffer == FlagAfterHooks(game, h)
    ensures InitCalled in r.trace <==> game.init.Some?
    ensures LoadCalled in r.trace <==> game.load.Some?
    ensures LoadCompleted in r.trace <==> r.Ready? && game.load.Some?
    ensures GameResolved in r.trace <==> r.Ready?
    ensures ViewAttached !in r.trace
    ensures r.Ready? ==> |r.trace| > 0 && r.trace[|r.trace| - 1] == GameResolved
  {
    StepsMembers(loading, game.init.Some?, game.load.Some?);
    var host := HostAfterHooks(game, h);
    if LoadHangs(game, h) then Pending(host, Started(loading, game.init.Some?, true))
    else Ready(game, host, HookTrace(loading, game.init.Some?, game.load.Some?))
  }

  /** The host once init and load have run: each hook's write applied in turn. */
  function HostAfterHooks(game: Game, h: HostState.Host): (r: HostState.Host)
    ensures r.(autoClearBackBuffer := h.autoClearBackBuffer) == h
    ensures r.autoClearBackBuffer == FlagAfterHooks(game, h)
  {
    var h' := Proxy.ApplyWrite(h, InitWrite(game, h));
    match LoadOutcome(game, h')
    case Some(o) => Proxy.ApplyWrite(h', o.write)
    case None => h'
  }

  /**
   * The load hook runs after init, so a value init leaves in the auto-clear
   * flag is what the proxy shows to load.
   */
  lemma {:induction false} LoadSeesInitWrite(h: HostState.Host, game: Game, v: bool)
    requires game.init.Some? && game.init.value(Proxy.Read(h)) == Some(v)
    requires game.load.Some?
    ensures LoadOutcome(game, Proxy.ApplyWrite(h, InitWrite(game, h)))
            == Some(game.load.value(Proxy.Read(h).(autoClearBackBuffer := v)))
  {
  }

  /**
   * A game whose init turns auto-clear off and whose load never settles: the
   * boot stays unsettled and binds no game, but init and load have run and
   * init's write is in the host.
   */
  lemma {:induction false} HangingLoadKeepsInit(h: HostState.Host, game: Game, fetchAndEvaluate: string -> Game)
    requires game.init.Some? && game.init.value(Proxy.Read(h)) == Some(false)
    requires game.load.Some? && game.load.value(Proxy.Read(h).(autoClearBackBuffer := false)) == LoadUnsettled(None)
    ensures Init(h, Some(game), fetchAndEvaluate).game.None?
    ensures !Init(h, Some(game), fetchAndEvaluate).host.autoClearBackBuffer
    ensures InitCalled in Init(h, Some(game), fetchAndEvaluate).trace
    ensures LoadCalled in Init(h, Some(game), fetchAndEvaluate).trace
    ensures LoadCompleted !in Init(h, Some(game), fetchAndEvaluate).trace
    ensures ViewAttached !in Init(h, Some(game), fetchAndEvaluate).trace
  {
  }

  /** The boot steps up to starting load: the loading steps, init when present, then the load call when present. */
  function Started(loading: seq<BootEvent>, hasInit: bool, hasLoad: bool): (t: seq<BootEvent>)
    ensures |loading| <= |t| && t[..|loading|] == loading
    ensures t[|loading|..] == (if hasInit then [InitCalled] else []) + (if hasLoad then [LoadCalled] else [])
  {
    var hooks := (if hasInit then [InitCalled] else []) + (if hasLoad then [LoadCalled] else []);
    assert loading + (if hasInit then [InitCalled] else []) + (if hasLoad then [LoadCalled] else [])
           == loading + hooks;
    loading + hooks
  }

  /** The boot steps of a settled boot: the started steps, load's completion when present, then resolution. */
  function HookTrace(loading: seq<BootEvent>, hasInit: bool, hasLoad: bool): (t: seq<BootEvent>)
    ensures |loading| <= |t| && t[..|loading|] == loading
    ensures var st := Started(loading, hasInit, hasLoad);
            |st| <= |t| && t[..|st|] == st && t[|st|..] == (if hasLoad then [LoadCompleted] else []) + [GameResolved]
  {
    var st := Started(loading, hasInit, hasLoad);
    var t := st + ((if hasLoad then [LoadCompleted] else []) + [GameResolved]);
    assert t[..|st|] == st;
    assert t[..|loading|] == st[..|loading|];
    t
  }

  /** Which boot steps the started and the settled step lists contain, after loading steps that contain none. */
  lemma {:induction false} StepsMembers(loading: seq<BootEvent>, hasInit: bool, hasLoad: bool)
    requires InitCalled !in loading && LoadCalled !in loading && LoadCompleted !in loading
    requires GameResolved !in loading && ViewAttached !in loading
    ensures var t := Started(loading, hasInit, hasLoad);
            && (InitCalled in t <==> hasInit) && (LoadCalled in t <==> hasLoad)
            && LoadCompleted !in t && GameResolved !in t && ViewAttached !in t
    ensures var t := HookTrace(loading, hasInit, hasLoad);
            && (InitCalled in t <==> hasInit) && (LoadCalled in t <==> hasLoad) && (LoadCompleted in t <==> hasLoad)
            && GameResolved in t && ViewAttached !in t && t[|t| - 1] == GameResolved
  {
    var st := Started(loading, hasInit, hasLoad);
    assert st == st[..|loading|] + st[|loading|..];
    var t := HookTrace(loading, hasInit, hasLoad);
    assert t == t[..|st|] + t[|st|..];
  }

  /** `a` precedes `b` when every `a` lies before position `k` and every `b` at or after it. */
  /** Every `a` of the first part comes before every `b` of the second. */
  lemma {:induction false} PrecedesSplit(x: seq<BootEvent>, y: seq<BootEvent>, a: BootEvent, b: BootEvent)
    requires a !in y && b !in x
    ensures Precedes(x + y, a, b)
  {
    var t := x + y;
    assert forall i :: |x| <= i < |t| ==> t[i] == y[i - |x|];
    assert forall j :: 0 <= j < |x| ==> t[j] == x[j];
  }

  /** Events put in front of a trace keep an order when they hold no `b`. */
  lemma {:induction false} PrecedesBehind(x: seq<BootEvent>, y: seq<BootEvent>, a: BootEvent, b: BootEvent)
    requires Precedes(y, a, b) && b !in x
    ensures Precedes(x + y, a, b)
  {
    var t := x + y;
    assert forall i :: |x| <= i < |t| ==> t[i] == y[i - |x|];
    assert forall j :: 0 <= j < |x| ==> t[j] == x[j];
  }

  /** Events put after a trace keep an order when they hold no `a`. */
  lemma {:induction false} PrecedesAhead(x: seq<BootEvent>, y: seq<BootEvent>, a: BootEvent, b: BootEvent)
    requires Precedes(x, a, b) && a !in y
    ensures Precedes(x + y, a, b)
  {
    var t := x + y;
    assert forall i :: |x| <= i < |t| ==> t[i] == y[i - |x|];
    assert forall j :: 0 <= j < |x| ==> t[j] == x[j];
  }

  /** The started or settled steps are the loading steps followed by the hooks' steps, one per present hook. */
  lemma {:induction false} StepsParts(loading: seq<BootEvent>, hasInit: bool, hasLoad: bool, settled: bool)
    ensures (if settled then HookTrace(loading, hasInit, hasLoad) else Started(loading, hasInit, hasLoad))
            == loading + ((if hasInit then [InitCalled] else []) + ((if hasLoad then [LoadCalled] else [])
                 + ((if settled && hasLoad then [LoadCompleted] else []) + (if settled then [GameResolved] else []))))
  {
    var st := Started(loading, hasInit, hasLoad);
    var t := if settled then HookTrace(loading, hasInit, hasLoad) else st;
    assert st == st[..|loading|] + st[|loading|..];
    assert t == t[..|st|] + t[|st|..];
  }

  /**
   * The hooks' steps after any loading steps run in order: evaluation before
   * init, init before load starts, load started before it completes, and load
   * completed before the game resolves (the last two only once it settles);
   * the hooks' steps hold no evaluation of their own.
   */
  lemma {:induction false} HookOrder(loading: seq<BootEvent>, hasInit: bool, hasLoad: bool, settled: bool)
    requires InitCalled !in loading && LoadCalled !in loading
    requires LoadCompleted !in loading && GameResolved !in loading
    ensures var t := loading + ((if hasInit then [InitCalled] else []) + ((if hasLoad then [LoadCalled] else [])
                       + ((if settled && hasLoad then [LoadCompleted] else []) + (if settled then [GameResolved] else []))));
            && Precedes(t, Evaluated, InitCalled)
            && Precedes(t, InitCalled, LoadCalled)
            && Precedes(t, LoadCalled, LoadCompleted)
            && Precedes(t, LoadCompleted, GameResolved)
            && (Evaluated in t <==> Evaluated in loading)
  {
    var init := if hasInit then [InitCalled] else [];
    var load := if hasLoad then [LoadCalled] else [];
    var completed := if settled && hasLoad then [LoadCompleted] else [];
    var resolved := if settled then [GameResolved] else [];
    var fromLoad := completed + resolved;
    var fromLoadCall := load + fromLoad;
    var fromInit := init + fromLoadCall;
    PrecedesSplit(loading, fromInit, Evaluated, InitCalled);
    PrecedesSplit(init, fromLoadCall, InitCalled, LoadCalled);
    PrecedesBehind(loading, fromInit, InitCalled, LoadCalled);
    PrecedesSplit(load, fromLoad, LoadCalled, LoadCompleted);
    PrecedesBehind(init, fromLoadCall, LoadCalled, LoadCompleted);
    PrecedesBehind(loading, fromInit, LoadCalled, LoadCompleted);
    PrecedesSplit(completed, resolved, LoadCompleted, GameResolved);
    PrecedesBehind(load, fromLoad, LoadCompleted, GameResolved);
    PrecedesBehind(init, fromLoadCall, LoadCompleted, GameResolved);
    PrecedesBehind(loading, fromInit, LoadCompleted, GameResolved);
    assert Evaluated !in fromInit;
  }

  /** A fetched script is evaluated after it is fetched, and neither step recurs in the hooks' steps. */
  lemma {:induction false} FetchOrder(path: string, hasInit: bool, hasLoad: bool, settled: bool)
    ensures var t := [Fetched(path), Evaluated] + ((if hasInit then [InitCalled] else []) + ((if hasLoad then [LoadCalled] else [])
                       + ((if settled && hasLoad then [LoadCompleted] else []) + (if settled then [GameResolved] else []))));
            Fetched(path) in t && Evaluated in t && Precedes(t, Fetched(path), Evaluated)
  {
    var hooks := (if hasInit then [InitCalled] else []) + ((if hasLoad then [LoadCalled] else [])
                   + ((if settled && hasLoad then [LoadCompleted] else []) + (if settled then [GameResolved] else [])));
    assert forall i :: 0 <= i < |hooks| ==> !hooks[i].Fetched?;
    PrecedesSplit([Fetched(path)], [Evaluated], Fetched(path), Evaluated);
    PrecedesAhead([Fetched(path)] + [Evaluated], hooks, Fetched(path), Evaluated);
    assert [Fetched(path)] + [Evaluated] == [Fetched(path), Evaluated];
  }

  /**
   * The order of the boot steps, for the loading steps of a fetched script
   * (`path`) or of a game passed in the options (no path), and for a boot
   * that settles or stays waiting on load.
   */
  lemma {:induction false} StepsOrder(path: Option<string>, hasInit: bool, hasLoad: bool, settled: bool)
    ensures var loading := if path.Some? then [Fetched(path.value), Evaluated] else [];
            var t := if settled then HookTrace(loading, hasInit, hasLoad) else Started(loading, hasInit, hasLoad);
            && (path.Some? ==> Fetched(path.value) in t && Evaluated in t && Precedes(t, Fetched(path.value), Evaluated))
            && (path.None? ==> Evaluated !in t)
            && Precedes(t, Evaluated, InitCalled)
            && Precedes(t, InitCalled, LoadCalled)
            && Precedes(t, LoadCalled, LoadCompleted)
            && Precedes(t, LoadCompleted, GameResolved)
  {
    var loading := if path.Some? then [Fetched(path.value), Evaluated] else [];
    StepsParts(loading, hasInit, hasLoad, settled);
    HookOrder(loading, hasInit, hasLoad, settled);
    if path.Some? {
      FetchOrder(path.value, hasInit, hasLoad, settled);
    }
  }

  /**
   * The boot steps happen strictly in order, whether or not the boot settles:
   * a script named by the header is fetched and then evaluated, evaluation
   * comes before init, init before load starts, and load completes before the
   * game is resolved. A game passed in the options is neither fetched nor
   * evaluated.
   */
  lemma {:induction false} BootOrder(h: HostState.Host, optionsGame: Option<Game>, fetchAndEvaluate: string -> Game)
    ensures var t := InitGame(h, optionsGame, fetchAndEvaluate).trace;
            && Precedes(t, Evaluated, InitCalled)
            && Precedes(t, InitCalled, LoadCalled)
            && Precedes(t, LoadCalled, LoadCompleted)
            && Precedes(t, LoadCompleted, GameResolved)
    ensures optionsGame.None? && h.header.main.Some? ==>
              var t := InitGame(h, optionsGame, fetchAndEvaluate).trace;
              && Fetched(h.header.main.value) in t && Evaluated in t
              && Precedes(t, Fetched(h.header.main.value), Evaluated)
    ensures optionsGame.Some? ==> Evaluated !in InitGame(h, optionsGame, fetchAndEvaluate).trace
  {
    var r := InitGame(h, optionsGame, fetchAndEvaluate);
    match LoadGame(optionsGame, h.header.main, fetchAndEvaluate)
    case Failure(_) =>
      assert r.trace == [];
    case Success(loaded) =>
      var path := if optionsGame.None? then h.header.main else None;
      StepsOrder(path, loaded.game.init.Some?, loaded.game.load.Some?, r.Ready?);
  }

  /** The host's bound game after booting, or none while the boot is unsettled. */
  datatype Booted = Booted(game: Option<Game>, host: HostState.Host, trace: seq<BootEvent>)

  /**
   * The host's `init()`: run initGame; when it resolves, bind the game and
   * attach the renderer's view to the player's root element. While initGame
   * is unsettled no game is bound and the view is not attached.
   */
  function Init(h: HostState.Host, optionsGame: Option<Game>, fetchAndEvaluate: string -> Game): (r: Booted)
    ensures r.game.None? <==> InitGame(h, optionsGame, fetchAndEvaluate).Pending?
    ensures r.host == InitGame(h, optionsGame, fetchAndEvaluate).host
    ensures r.game.Some? ==> r.game.value == InitGame(h, optionsGame, fetchAndEvaluate).game
    ensures r.game.None? ==> r.trace == InitGame(h, optionsGame, fetchAndEvaluate).trace
    ensures ViewAttached in r.trace <==> r.game.Some?
    ensures r.game.Some? ==> |r.trace| >= 2 && r.trace[|r.trace| - 1] == ViewAttached
    ensures r.game.Some? ==> r.trace[..|r.trace| - 1] == InitGame(h, optionsGame, fetchAndEvaluate).trace
    ensures r.game.Some? ==> r.trace[|r.trace| - 2] == GameResolved
  {
    match InitGame(h, optionsGame, fetchAndEvaluate)
    case Pending(h', trace) => Booted(None, h', trace)
    case Ready(game, h', trace) =>
      var t := trace + [ViewAttached];
      assert t[..|t| - 1] == trace;
      Booted(Some(game), h', t)
  }
}

=== FILE: proxy.dfy ===
/**
 * VMProxy: the view of the host handed to the game. Every getter reads the
 * host at the moment of the call, and the auto-clear flag is the one field a
 * game can write.
 */
module Proxy {
  import opened Base
  import HostState

  /** What the proxy's getters return when read against a host. */
  datatype View = View(
    header: HostState.Header,
    pixi: nat,
    SWIDTH: nat,
    SHEIGHT: nat,
    player: nat,
    stage: nat,
    renderer: nat,
    backBuffer: nat,
    autoClearBackBuffer: bool)

  /** Reading every getter of the proxy against the host's current state. */
  function Read(h: HostState.Host): (v: View)
    ensures v.SWIDTH == h.Width() && v.SHEIGHT == h.Height()
    ensures v.header == h.header && v.autoClearBackBuffer == h.autoClearBackBuffer
    ensures v.stage == h.handles.stage && v.backBuffer == h.handles.backBuffer
    ensures v.pixi == h.handles.pixi && v.player == h.handles.player && v.renderer == h.handles.renderer
  {
    View(h.header, h.handles.pixi, h.SWIDTH(), h.SHEIGHT(), h.handles.player,
         h.handles.stage, h.handles.renderer, h.handles.backBuffer, h.autoClearBackBuffer)
  }

  /** The `autoClearBackBuffer` setter: writes through to the host and touches nothing else. */
  function WriteAutoClear(h: HostState.Host, value: bool): (r: HostState.Host)
    ensures r.autoClearBackBuffer == value
    ensures r.(autoClearBackBuffer := h.autoClearBackBuffer) == h
  {
    h.(autoClearBackBuffer := value)
  }

  /**
   * The effect of a hook on the host: the value it left in the auto-clear
   * flag through the proxy, if it wrote one. Nothing else can change.
   */
  function ApplyWrite(h: HostState.Host, write: Option<bool>): (r: HostState.Host)
    ensures r.(autoClearBackBuffer := h.autoClearBackBuffer) == h
    ensures write.Some? ==> r.autoClearBackBuffer == write.value
    ensures write.None? ==> r == h
  {
    match write
    case Some(v) => WriteAutoClear(h, v)
    case None => h
  }

  /** A write through the proxy is seen by the next read, and only the written getter changes. */
  lemma ReadAfterWrite(h: HostState.Host, value: bool)
    ensures Read(WriteAutoClear(h, value)) == Read(h).(autoClearBackBuffer := value)
  {
  }

  /** Writing back the value just read leaves the host as it was. */
  lemma WriteWhatWasRead(h: HostState.Host)
    ensures WriteAutoClear(h, Read(h).autoClearBackBuffer) == h
  {
  }

  /**
   * Two hosts look the same through the proxy exactly when they agree on
   * everything the proxy exposes; the lifecycle flags are invisible to it.
   */
  lemma ViewIsExact(h1: HostState.Host, h2: HostState.Host)
    ensures Read(h1) == Read(h2) <==>
              && h1.header == h2.header && h1.handles == h2.handles
              && h1.backBuffer == h2.backBuffer
              && h1.autoClearBackBuffer == h2.autoClearBackBuffer
  {
    if Read(h1) == Read(h2) {
      assert h1.backBuffer.width == Read(h1).SWIDTH;
      assert h1.handles == HostState.Handles(Read(h1).pixi, Read(h1).player, Read(h1).stage, Read(h1).renderer, Read(h1).backBuffer);
    }
  }
}

=== FILE: resolution.dfy ===
/**
 * The virtual-resolution resolver run by the host's constructor: the header's
 * optional "A/B" aspect ratio is split on '/', both halves are read as
 * decimal integers, and one side of the 128x128 native resolution is kept
 * while the other is scaled and rounded to the nearest integer.
 */
module Resolution {
  import opened Base

  /** Native resolution of the virtual display. */
  const ScreenWidth: nat := 128
  const ScreenHeight: nat := 128

  datatype Size = Size(width: nat, height: nat)

  // ---------------------------------------------------------------------------
  // String.prototype.split on a one-character separator

  /** Index of the first occurrence of `c` in `s`. */
  function IndexOf(s: string, c: char): (k: nat)
    requires c in s
    ensures k < |s| && s[k] == c
    ensures c !in s[..k]
  {
    if s[0] == c then 0
    else
      var k' := IndexOf(s[1..], c);
      assert s[..k' + 1] == [s[0]] + s[1..][..k'];
      1 + k'
  }

  /** The inverse of splitting: the parts glued back together with the separator between them. */
  function Join(parts: seq<string>, sep: char): string
  {
    if |parts| == 0 then ""
    else if |parts| == 1 then parts[0]
    else parts[0] + [sep] + Join(parts[1..], sep)
  }

  /**
   * `s.split(sep)`: the maximal separator-free pieces of `s`, in order. An
   * empty string and a string without the separator both give one piece.
   */
  function Split(s: string, sep: char): (parts: seq<string>)
    ensures |parts| >= 1
    ensures forall i :: 0 <= i < |parts| ==> sep !in parts[i]
    ensures Join(parts, sep) == s
    decreases |s|
  {
    if sep !in s then [s]
    else
      var k := IndexOf(s, sep);
      var rest := Split(s[k + 1..], sep);
      assert ([s[..k]] + rest)[1..] == rest;
      assert s == s[..k] + [sep] + s[k + 1..];
      [s[..k]] + rest
  }

  /** Splitting a joined list of separator-free pieces gives the pieces back. */
  lemma {:induction false} SplitJoin(parts: seq<string>, sep: char)
    requires |parts| >= 1
    requires forall i :: 0 <= i < |parts| ==> sep !in parts[i]
    ensures Split(Join(parts, sep), sep) == parts
    decreases |parts|
  {
    if |parts| > 1 {
      var head, tail := parts[0], Join(parts[1..], sep);
      var s := Join(parts, sep);
      assert s == head + [sep] + tail;
      FirstSeparator(head, sep, tail);
      SplitJoin(parts[1..], sep);
      calc {
        Split(s, sep);
        [s[..IndexOf(s, sep)]] + Split(s[IndexOf(s, sep) + 1..], sep);
        [head] + Split(tail, sep);
        [head] + parts[1..];
        parts;
      }
    }
  }

  /** In a separator-free piece followed by the separator, the first separator is the one after the piece. */
  lemma {:induction false} FirstSeparator(head: string, sep: char, tail: string)
    requires sep !in head
    ensures sep in head + [sep] + tail
    ensures IndexOf(head + [sep] + tail, sep) == |head|
    ensures (head + [sep] + tail)[|head| + 1..] == tail
    ensures (head + [sep] + tail)[..|head|] == head
    decreases |head|
  {
    var s := head + [sep] + tail;
    assert s[|head|] == sep;
    if |head| > 0 {
      assert s[1..] == head[1..] + [sep] + tail;
      FirstSeparator(head[1..], sep, tail);
    }
  }

  // ---------------------------------------------------------------------------
  // parseInt on a string of decimal digits

  predicate IsDigit(c: char) {
    '0' <= c <= '9'
  }

  predicate AllDigits(s: string) {
    forall i :: 0 <= i < |s| ==> IsDigit(s[i])
  }

  /** A non-empty run of decimal digits: the strings parseInt reads completely. */
  predicate IsDecimal(s: string) {
    |s| > 0 && AllDigits(s)
  }

  function DigitValue(c: char): nat
    requires IsDigit(c)
  {
    c as int - '0' as int
  }

  function DigitChar(d: nat): (c: char)
    requires d < 10
    ensures IsDigit(c) && DigitValue(c) == d
  {
    ('0' as int + d) as char
  }

  /** `parseInt(s)` for a string of decimal digits (leading zeros allowed). */
  function DecimalValue(s: string): nat
    requires AllDigits(s)
    decreases |s|
  {
    if |s| == 0 then 0
    else 10 * DecimalValue(s[..|s| - 1]) + DigitValue(s[|s| - 1])
  }

  /** The decimal spelling of `n`; `parseInt` reads it back as `n`. */
  function ShowNat(n: nat): (s: string)
    ensures IsDecimal(s)
    ensures DecimalValue(s) == n
  {
    if n < 10 then [DigitChar(n)]
    else
      var prefix := ShowNat(n / 10);
      var s := prefix + [DigitChar(n % 10)];
      assert s[..|s| - 1] == prefix;
      s
  }

  // ---------------------------------------------------------------------------
  // The "A/B" aspect ratio

  /**
   * An aspect ratio the constructor reads as two positive integers: the first
   * two pieces of `split("/")` are decimal and positive (later pieces are
   * ignored, as the destructuring `[a, b]` ignores them).
   */
  predicate WellFormedRatio(s: string) {
    var parts := Split(s, '/');
    && |parts| >= 2
    && IsDecimal(parts[0]) && IsDecimal(parts[1])
    && DecimalValue(parts[0]) > 0 && DecimalValue(parts[1]) > 0
  }

  /** The pair `[a, b]` the constructor reads from a well-formed ratio. */
  function ParseRatio(s: string): (ab: (nat, nat))
    requires WellFormedRatio(s)
    ensures ab.0 > 0 && ab.1 > 0
  {
    var parts := Split(s, '/');
    (DecimalValue(parts[0]), DecimalValue(parts[1]))
  }

  /** Writing "A/B" for positive A and B and reading it back gives (A, B). */
  lemma RatioRoundTrip(a: nat, b: nat)
    requires a > 0 && b > 0
    ensures WellFormedRatio(ShowNat(a) + "/" + ShowNat(b))
    ensures ParseRatio(ShowNat(a) + "/" + ShowNat(b)) == (a, b)
  {
    var sa, sb := ShowNat(a), ShowNat(b);
    var parts := [sa, sb];
    assert Join(parts[1..], '/') == sb;
    assert Join(parts, '/') == sa + "/" + sb;
    SplitJoin(parts, '/');
  }

  // ---------------------------------------------------------------------------
  // Math.round and the resolver

  /**
   * `r` is `Math.round(n / d)`: the integer with r - 1/2 <= n/d < r + 1/2
   * (halves round up), written without division by scaling with 2d.
   */
  predicate IsNearest(r: int, n: int, d: int)
    requires d > 0
  {
    2 * d * r <= 2 * n + d < 2 * d * r + 2 * d
  }

  /** `Math.round(n / d)` for n >= 0 and d > 0, in integer arithmetic. */
  function RoundDiv(n: nat, d: nat): (r: nat)
    requires d > 0
    ensures IsNearest(r, n, d)
  {
    var q := (2 * n + d) / (2 * d);
    assert 2 * n + d == 2 * d * q + (2 * n + d) % (2 * d);
    q
  }

  /** At most one integer is the rounded value of a quotient. */
  lemma NearestIsUnique(r1: int, r2: int, n: int, d: int)
    requires d > 0
    requires IsNearest(r1, n, d) && IsNearest(r2, n, d)
    ensures r1 == r2
  {
    if r1 < r2 {
      MulMonotone(2 * d, r1 + 1, r2);
    } else if r2 < r1 {
      MulMonotone(2 * d, r2 + 1, r1);
    }
  }

  lemma MulMonotone(k: int, x: int, y: int)
    requires k >= 0 && x <= y
    ensures k * x <= k * y
  {
  }

  /** Rounding n/d with n <= base * d never exceeds base. */
  lemma NearestBounded(r: int, n: int, d: int, base: nat)
    requires d > 0
    requires 0 <= n <= base * d
    requires IsNearest(r, n, d)
    ensures 0 <= r <= base
  {
    if r > base {
      MulMonotone(2 * d, base + 1, r);
      assert false;
    }
    if r < 0 {
      MulMonotone(2 * d, r + 1, 0);
      assert false;
    }
  }

  /**
   * The virtual resolution the constructor computes from the header's
   * optional aspect ratio.
   */
  function Resolve(aspectRatio: Option<string>): (r: Size)
    requires aspectRatio.Some? ==> WellFormedRatio(aspectRatio.value)
    ensures aspectRatio.None? ==> r == Size(ScreenWidth, ScreenHeight)
    ensures aspectRatio.Some? ==>
              var (a, b) := ParseRatio(aspectRatio.value);
              if a >= b then r.width == ScreenWidth && IsNearest(r.height, ScreenWidth * b, a)
              else r.height == ScreenHeight && IsNearest(r.width, ScreenHeight * a, b)
    ensures r.width <= ScreenWidth && r.height <= ScreenHeight
  {
    match aspectRatio
    case None => Size(ScreenWidth, ScreenHeight)
    case Some(s) =>
      var (a, b) := ParseRatio(s);
      if a >= b then
        var h := RoundDiv(ScreenWidth * b, a);
        MulMonotone(ScreenWidth, b, a);
        NearestBounded(h, ScreenWidth * b, a, ScreenWidth);
        Size(ScreenWidth, h)
      else
        var w := RoundDiv(ScreenHeight * a, b);
        MulMonotone(ScreenHeight, a, b);
        NearestBounded(w, ScreenHeight * a, b, ScreenHeight);
        Size(w, ScreenHeight)
  }

  /** A 16/9 header gives the 128x72 virtual display. */
  lemma WideScreen()
    ensures WellFormedRatio("16/9")
    ensures Resolve(Some("16/9")) == Size(128, 72)
  {
  }

  /** A 9/16 header keeps the height and narrows the width to 72. */
  lemma TallScreen()
    ensures WellFormedRatio("9/16")
    ensures Resolve(Some("9/16")) == Size(72, 128)
  {
  }

  /** No lower bound is enforced: for a 1000/1 header the constructor computes a height of 0. */
  lemma DegenerateRatio()
    ensures WellFormedRatio("1000/1")
    ensures Resolve(Some("1000/1")) == Size(128, 0)
  {
    RatioRoundTrip(1000, 1);
    assert ShowNat(1000) + "/" + ShowNat(1) == "1000/1";
    NearestIsUnique(Resolve(Some("1000/1")).height, 0, 128, 1000);
  }
}

=== FILE: sample_game.dfy ===
/**
 * The sample game's `reset`: it swaps its container on the host's stage for a
 * fresh one holding a 5x5 grid of bunny sprites 40 pixels apart, centred on
 * the virtual display.
 */
module SampleGame {
  import opened Base
  import Proxy

  /** A sprite's position in its container (every sprite is anchored at its centre). */
  datatype Sprite = Sprite(x: int, y: int)

  /** A container on the stage: its identity, its position and its sprites in child order. */
  datatype Container = Container(id: nat, x: real, y: real, sprites: seq<Sprite>)

  /** The game's module state: the container it last added to the stage, if any. */
  datatype State = State(container: Option<Container>)

  const GridSide := 5
  const Spacing := 40

  /** The first `n` sprites of the grid, added in loop order: sprite i at column i % 5, row i / 5. */
  function Bunnies(n: nat): (s: seq<Sprite>)
    ensures |s| == n
    ensures forall i :: 0 <= i < n ==> s[i].x == (i % GridSide) * Spacing && s[i].y == (i / GridSide) * Spacing
  {
    if n == 0 then []
    else Bunnies(n - 1) + [Sprite(((n - 1) % GridSide) * Spacing, ((n - 1) / GridSide) * Spacing)]
  }

  /** Where the sprite in a given row and column of the grid sits. */
  function Cell(row: nat, col: nat): Sprite {
    Sprite(Spacing * col, Spacing * row)
  }

  /** The 25 sprites of a fresh container, laid out row by row. */
  function Grid(): (s: seq<Sprite>)
    ensures |s| == GridSide * GridSide
    ensures forall row: nat, col: nat :: row < GridSide && col < GridSide ==>
              Cell(row, col) == s[GridSide * row + col]
  {
    var s := Bunnies(GridSide * GridSide);
    forall row: nat, col: nat | row < GridSide && col < GridSide
      ensures Cell(row, col) == s[GridSide * row + col]
    {
      var i := GridSide * row + col;
      assert i % GridSide == col && i / GridSide == row;
    }
    s
  }

  /** Every coordinate of the grid is one of 0, 40, 80, 120, 160, and no two sprites share a position. */
  lemma GridPositions()
    ensures forall i :: 0 <= i < |Grid()| ==> Grid()[i].x in {0, 40, 80, 120, 160} && Grid()[i].y in {0, 40, 80, 120, 160}
    ensures forall i, j :: 0 <= i < j < |Grid()| ==> Grid()[i] != Grid()[j]
  {
  }

  /** `stage.removeChild(id)`: drop the child's first occurrence; an absent child leaves the list as it is. */
  function RemoveChild(children: seq<nat>, id: nat): (r: seq<nat>)
    ensures id !in children ==> r == children
    ensures id in children ==> |r| == |children| - 1 && multiset(r) + multiset{id} == multiset(children)
  {
    if |children| == 0 then []
    else
      assert children == [children[0]] + children[1..];
      if children[0] == id then children[1..]
      else [children[0]] + RemoveChild(children[1..], id)
  }

  /** The stage's children other than those in `ids`, in their order. */
  function Others(children: seq<nat>, ids: set<nat>): (r: seq<nat>)
    ensures forall x :: x in r <==> x in children && x !in ids
  {
    if |children| == 0 then []
    else (if children[0] in ids then [] else [children[0]]) + Others(children[1..], ids)
  }

  predicate NoDuplicates(s: seq<nat>) {
    forall i, j :: 0 <= i < j < |s| ==> s[i] != s[j]
  }

  lemma {:induction false} OthersAppend(a: seq<nat>, b: seq<nat>, ids: set<nat>)
    ensures Others(a + b, ids) == Others(a, ids) + Others(b, ids)
    decreases |a|
  {
    if |a| > 0 {
      assert (a + b)[1..] == a[1..] + b;
      OthersAppend(a[1..], b, ids);
    } else {
      assert a + b == b;
    }
  }

  lemma {:induction false} OthersOfDisjoint(s: seq<nat>, ids: set<nat>)
    requires forall i :: 0 <= i < |s| ==> s[i] !in ids
    ensures Others(s, ids) == s
    decreases |s|
  {
    if |s| > 0 {
      OthersOfDisjoint(s[1..], ids);
    }
  }

  lemma {:induction false} OthersKeepsDistinct(s: seq<nat>, ids: set<nat>)
    requires NoDuplicates(s)
    ensures NoDuplicates(Others(s, ids))
    decreases |s|
  {
    if |s| > 0 {
      OthersKeepsDistinct(s[1..], ids);
      var rest := Others(s[1..], ids);
      assert s[0] !in rest;
    }
  }

  /** On a stage without duplicate children, removing a child drops exactly that child. */
  lemma {:induction false} RemoveChildIsOthers(s: seq<nat>, id: nat)
    requires NoDuplicates(s)
    ensures RemoveChild(s, id) == Others(s, {id})
    decreases |s|
  {
    if |s| > 0 {
      if s[0] == id {
        assert id !in s[1..];
        OthersOfDisjoint(s[1..], {id});
      } else {
        RemoveChildIsOthers(s[1..], id);
      }
    }
  }

  /** The identities of the container the game currently owns. */
  function Ids(state: State): set<nat> {
    if state.container.Some? then {state.container.value.id} else {}
  }

  /** The game's state and the stage's children after `reset()`. */
  datatype Reset = Reset(state: State, stage: seq<nat>)

  /**
   * `reset()`: remove the previous container from the stage if there is one,
   * add a new container holding the grid, and place it at the centre of the
   * virtual display the proxy reports. `newId` is the new container's
   * identity, distinct from every child already on the stage.
   */
  function ResetGame(state: State, vm: Proxy.View, stage: seq<nat>, newId: nat): (r: Reset)
    requires newId !in stage
    ensures r.state.container.Some?
    ensures r.state.container.value.id == newId
    ensures r.state.container.value.sprites == Grid()
    ensures r.state.container.value.x == vm.SWIDTH as real / 2.0
    ensures r.state.container.value.y == vm.SHEIGHT as real / 2.0
    ensures |r.stage| > 0 && r.stage[|r.stage| - 1] == newId
    ensures multiset(r.stage)[newId] == 1
    ensures NoDuplicates(stage) ==> NoDuplicates(r.stage)
    ensures NoDuplicates(stage) ==> Others(r.stage, {newId}) == Others(stage, Ids(state))
  {
    var kept := Kept(state, stage);
    var c := Container(newId, vm.SWIDTH as real / 2.0, vm.SHEIGHT as real / 2.0, Grid());
    ResetStage(state, stage, newId);
    Reset(State(Some(c)), kept + [newId])
  }

  /** The stage's children once the previous container, if any, is removed. */
  function Kept(state: State, stage: seq<nat>): (r: seq<nat>)
    ensures multiset(r) <= multiset(stage)
  {
    if state.container.Some? then RemoveChild(stage, state.container.value.id) else stage
  }

  lemma {:induction false} ResetStage(state: State, stage: seq<nat>, newId: nat)
    requires newId !in stage
    ensures multiset(Kept(state, stage) + [newId])[newId] == 1
    ensures NoDuplicates(stage) ==> NoDuplicates(Kept(state, stage) + [newId])
    ensures NoDuplicates(stage) ==> Others(Kept(state, stage) + [newId], {newId}) == Others(stage, Ids(state))
  {
    var kept := Kept(state, stage);
    assert newId !in kept by {
      assert newId !in multiset(stage);
    }
    assert Others([newId], {newId}) == [];
    OthersAppend(kept, [newId], {newId});
    if NoDuplicates(stage) {
      OthersOfDisjoint(kept, {newId});
      if state.container.None? {
        OthersOfDisjoint(stage, {});
      } else {
        RemoveChildIsOthers(stage, state.container.value.id);
        OthersKeepsDistinct(stage, {state.container.value.id});
      }
      DistinctAppend(kept, newId);
    }
  }

  lemma {:induction false} DistinctAppend(s: seq<nat>, x: nat)
    requires NoDuplicates(s) && x !in s
    ensures NoDuplicates(s + [x])
  {
  }
}

=== FILE: sessions.dfy ===
/**
 * Sequences of calls the player makes on a booted host, and the lifecycle
 * properties that hold over every such sequence.
 */
module Sessions {
  import opened Base
  import Sdk
  import opened HostState
  import opened Games
  import opened Traces
  import opened Dispatcher
  import Proxy
  import Resolution

  /**
   * One call on the host. `Frame` is the application ticker firing; it reaches
   * the host only while the host's callback is added to the ticker.
   */
  datatype Command =
    | PlayCmd(realWidth: nat, realHeight: nat)
    | PauseCmd
    | FrameCmd(delta: real, playerTicker: bool)
    | TickCmd(inputs: seq<Sdk.Inputs>, delta: real, render: bool)
    | WriteAutoClearCmd(value: bool)
    | LoadStateCmd(state: Sdk.Obj)
    | SaveStateCmd
    | GetStateForAgentCmd

  /**
   * One call on the host. Only `play()` starts the host playing and nothing
   * stops it; the resolution, header and handles never change.
   */
  function Apply(h: Host, game: Option<Game>, c: Command): (r: Step)
    ensures r.host.backBuffer == h.backBuffer
    ensures r.host.header == h.header && r.host.handles == h.handles
    ensures c.PlayCmd? ==> r.host.isPlaying
    ensures !c.PlayCmd? ==> r.host.isPlaying == h.isPlaying
  {
    match c
    case PlayCmd(w, ht) => Play(h, w, ht)
    case PauseCmd => Pause(h)
    case FrameCmd(delta, playerTicker) =>
      if h.tickerRegistered then Frame(h, delta, playerTicker) else Step(h, [])
    case TickCmd(inputs, delta, render) => Tick(h, game, inputs, delta, render)
    case WriteAutoClearCmd(v) => Step(Proxy.WriteAutoClear(h, v), [])
    case LoadStateCmd(state) => LoadState(h, game, state)
    case SaveStateCmd => Step(SaveState(h, game).host, [])
    case GetStateForAgentCmd => Step(GetStateForAgent(h, game).host, [])
  }

  /**
   * Running the commands in order. The virtual resolution, header and handles
   * never change, and a host that has started playing stays playing.
   */
  function Run(h: Host, game: Option<Game>, cmds: seq<Command>): (r: Step)
    ensures r.host.backBuffer == h.backBuffer
    ensures r.host.header == h.header && r.host.handles == h.handles
    ensures h.isPlaying ==> r.host.isPlaying
    decreases |cmds|
  {
    if |cmds| == 0 then Step(h, [])
    else
      var first := Apply(h, game, cmds[0]);
      var rest := Run(first.host, game, cmds[1..]);
      Step(rest.host, first.trace + rest.trace)
  }

  /** A registered frame callback implies the host is playing. */
  predicate Consistent(h: Host) {
    h.tickerRegistered ==> h.isPlaying
  }

  lemma {:induction false} RunKeepsConsistent(h: Host, game: Option<Game>, cmds: seq<Command>)
    requires Consistent(h)
    ensures Consistent(Run(h, game, cmds).host)
    decreases |cmds|
  {
    if |cmds| > 0 {
      RunKeepsConsistent(Apply(h, game, cmds[0]).host, game, cmds[1..]);
    }
  }

  /**
   * The frame callback is added to the ticker at most once over any sequence
   * of calls, and never once the host has started playing.
   */
  lemma {:induction false} TickerAddedAtMostOnce(h: Host, game: Option<Game>, cmds: seq<Command>)
    ensures Count(Run(h, game, cmds).trace, IsTickerAdd) <= (if h.isPlaying then 0 else 1)
    decreases |cmds|
  {
    if |cmds| > 0 {
      var first := Apply(h, game, cmds[0]);
      var rest := Run(first.host, game, cmds[1..]);
      TickerAddedAtMostOnce(first.host, game, cmds[1..]);
      CountAppend(first.trace, rest.trace, IsTickerAdd);
      ApplyAdds(h, game, cmds[0]);
    }
  }

  lemma {:induction false} ApplyAdds(h: Host, game: Option<Game>, c: Command)
    ensures Count(Apply(h, game, c).trace, IsTickerAdd) == (if c.PlayCmd? && !h.isPlaying then 1 else 0)
    ensures !c.PlayCmd? || h.isPlaying ==> Apply(h, game, c).host.isPlaying == h.isPlaying
    ensures c.PlayCmd? ==> Apply(h, game, c).host.isPlaying
  {
    var t := Apply(h, game, c).trace;
    if c.PlayCmd? && !h.isPlaying {
      assert t[..1] == [Resized(c.realWidth, c.realHeight, h.SWIDTH(), h.SHEIGHT())];
      CountZero(t[..1], IsTickerAdd);
    } else if c.TickCmd? {
      TickEvents(h, game, c.inputs, c.delta, c.render);
    } else {
      CountZero(t, IsTickerAdd);
    }
  }

  /**
   * Once a playing host is paused its frame callback is never added back:
   * no later call re-registers it and no later frame reaches the player's ticker.
   */
  lemma {:induction false} PauseIsFinal(h: Host, game: Option<Game>, cmds: seq<Command>)
    requires h.isPlaying
    ensures !Run(Pause(h).host, game, cmds).host.tickerRegistered
    ensures Count(Run(Pause(h).host, game, cmds).trace, IsTickerAdd) == 0
    ensures Count(Run(Pause(h).host, game, cmds).trace, IsPlayerTick) == 0
  {
    StaysUnregistered(Pause(h).host, game, cmds);
    TickerAddedAtMostOnce(Pause(h).host, game, cmds);
  }

  lemma {:induction false} StaysUnregistered(h: Host, game: Option<Game>, cmds: seq<Command>)
    requires h.isPlaying && !h.tickerRegistered
    ensures !Run(h, game, cmds).host.tickerRegistered
    ensures Count(Run(h, game, cmds).trace, IsPlayerTick) == 0
    decreases |cmds|
  {
    if |cmds| > 0 {
      var first := Apply(h, game, cmds[0]);
      var rest := Run(first.host, game, cmds[1..]);
      ApplyUnregistered(h, game, cmds[0]);
      StaysUnregistered(first.host, game, cmds[1..]);
      CountAppend(first.trace, rest.trace, IsPlayerTick);
    }
  }

  lemma {:induction false} ApplyUnregistered(h: Host, game: Option<Game>, c: Command)
    requires h.isPlaying && !h.tickerRegistered
    ensures Apply(h, game, c).host.isPlaying && !Apply(h, game, c).host.tickerRegistered
    ensures Count(Apply(h, game, c).trace, IsPlayerTick) == 0
  {
    if c.TickCmd? {
      TickEvents(h, game, c.inputs, c.delta, c.render);
    } else {
      var t := Apply(h, game, c).trace;
      CountZero(t, IsPlayerTick);
    }
  }

  /** A tick neither touches the ticker nor reaches the player's ticker. */
  lemma {:induction false} TickEvents(h: Host, game: Option<Game>, inputs: seq<Sdk.Inputs>, delta: real, render: bool)
    ensures Tick(h, game, inputs, delta, render).host.tickerRegistered == h.tickerRegistered
    ensures Count(Tick(h, game, inputs, delta, render).trace, IsPlayerTick) == 0
    ensures Count(Tick(h, game, inputs, delta, render).trace, IsTickerAdd) == 0
  {
    TickEventsOnly(Tick(h, game, inputs, delta, render).trace);
  }

  /**
   * A tick fault is logged at most once per clearing of the latch, and only
   * the first effective `play()` clears it: from any host, the number of
   * logged faults is bounded by one if the latch is clear plus one if the host
   * has not yet started playing.
   */
  lemma {:induction false} FaultLogBound(h: Host, game: Option<Game>, cmds: seq<Command>)
    ensures Count(Run(h, game, cmds).trace, IsErrorLog)
            <= (if h.displayedTickError then 0 else 1) + (if h.isPlaying then 0 else 1)
    decreases |cmds|
  {
    if |cmds| > 0 {
      var first := Apply(h, game, cmds[0]);
      var rest := Run(first.host, game, cmds[1..]);
      FaultLogBound(first.host, game, cmds[1..]);
      CountAppend(first.trace, rest.trace, IsErrorLog);
      ApplyLogs(h, game, cmds[0]);
    }
  }

  lemma {:induction false} ApplyLogs(h: Host, game: Option<Game>, c: Command)
    ensures var s := Apply(h, game, c);
            && Count(s.trace, IsErrorLog) <= (if h.displayedTickError then 0 else 1)
            && (Count(s.trace, IsErrorLog) == 1 ==> s.host.displayedTickError)
            && (h.isPlaying ==> s.host.isPlaying)
            && (s.host.isPlaying == h.isPlaying ==> (h.displayedTickError ==> s.host.displayedTickError))
  {
    var t := Apply(h, game, c).trace;
    if !c.TickCmd? {
      CountZero(t, IsErrorLog);
    }
  }

  /**
   * A game whose tick always throws, ticked any positive number of times on a
   * host with a clear latch, has its tick called every time and exactly one
   * fault logged: the host keeps dispatching.
   */
  lemma {:induction false} FaultyGameLogsOnce(h: Host, game: Game, cmds: seq<Command>)
    requires !h.displayedTickError
    requires game.tick.Some?
    requires forall a, d, r, v :: game.tick.value(a, d, r, v).Threw?
    requires forall i :: 0 <= i < |cmds| ==> cmds[i].TickCmd?
    requires |cmds| > 0
    ensures Count(Run(h, Some(game), cmds).trace, IsErrorLog) == 1
    ensures Count(Run(h, Some(game), cmds).trace, IsGameTick) == |cmds|
    ensures Run(h, Some(game), cmds).host.displayedTickError
  {
    var first := Apply(h, Some(game), cmds[0]);
    var rest := Run(first.host, Some(game), cmds[1..]);
    assert game.tick.value(cmds[0].inputs, cmds[0].delta, cmds[0].render, Proxy.Read(h)).Threw?;
    CountAppend(first.trace, rest.trace, IsErrorLog);
    CountAppend(first.trace, rest.trace, IsGameTick);
    LatchedGameLogsNothing(first.host, game, cmds[1..]);
  }

  lemma {:induction false} LatchedGameLogsNothing(h: Host, game: Game, cmds: seq<Command>)
    requires h.displayedTickError
    requires game.tick.Some?
    requires forall i :: 0 <= i < |cmds| ==> cmds[i].TickCmd?
    ensures Count(Run(h, Some(game), cmds).trace, IsErrorLog) == 0
    ensures Count(Run(h, Some(game), cmds).trace, IsGameTick) == |cmds|
    ensures Run(h, Some(game), cmds).host.displayedTickError
    decreases |cmds|
  {
    if |cmds| > 0 {
      var first := Apply(h, Some(game), cmds[0]);
      var rest := Run(first.host, Some(game), cmds[1..]);
      CountAppend(first.trace, rest.trace, IsErrorLog);
      CountAppend(first.trace, rest.trace, IsGameTick);
      LatchedGameLogsNothing(first.host, game, cmds[1..]);
    }
  }

  /** `pause()` before any `play()` changes nothing about the host. */
  lemma PauseBeforePlay(h: Host)
    requires !h.tickerRegistered
    ensures Pause(h).host == h
  {
  }

  /**
   * `play()` does clear the latch: a game that throws on every tick, ticked
   * once before and once after the first `play()`, has two faults logged.
   */
  lemma {:induction false} PlayRearmsFaultLog(h: Host, game: Game, inputs: seq<Sdk.Inputs>, delta: real)
    requires !h.isPlaying && !h.displayedTickError
    requires game.tick.Some? && forall a, d, r, v :: game.tick.value(a, d, r, v).Threw?
    ensures Count(Run(h, Some(game), [TickCmd(inputs, delta, false), PlayCmd(1, 1), TickCmd(inputs, delta, false)]).trace,
                  IsErrorLog) == 2
  {
    var cmds := [TickCmd(inputs, delta, false), PlayCmd(1, 1), TickCmd(inputs, delta, false)];
    assert game.tick.value(inputs, delta, false, Proxy.Read(h)).Threw?;
    var s1 := Apply(h, Some(game), cmds[0]);
    var s2 := Apply(s1.host, Some(game), cmds[1]);
    var s3 := Apply(s2.host, Some(game), cmds[2]);
    assert Count(s1.trace, IsErrorLog) == 1;
    assert Count(s2.trace, IsErrorLog) == 0 by {
      CountZero(s2.trace, IsErrorLog);
    }
    assert !s2.host.displayedTickError;
    assert Count(s3.trace, IsErrorLog) == 1;
    var r3 := Run(s2.host, Some(game), cmds[2..]);
    assert r3.trace == s3.trace by {
      assert cmds[2..][0] == cmds[2];
      assert cmds[2..][1..] == [];
      assert Run(s3.host, Some(game), cmds[2..][1..]) == Step(s3.host, []);
      assert s3.trace + [] == s3.trace;
    }
    var r2 := Run(s1.host, Some(game), cmds[1..]);
    assert r2.trace == s2.trace + r3.trace by {
      assert cmds[1..][0] == cmds[1];
      assert cmds[1..][1..] == cmds[2..];
    }
    CountAppend(s2.trace, r3.trace, IsErrorLog);
    CountAppend(s1.trace, r2.trace, IsErrorLog);
  }

  /** A host fresh from the constructor registers its frame callback at most once over its lifetime. */
  lemma {:induction false} FreshHostAddsTickerOnce(header: Header, handles: Handles, w: nat, ht: nat, game: Option<Game>, cmds: seq<Command>)
    requires header.aspectRatio.Some? ==> Resolution.WellFormedRatio(header.aspectRatio.value)
    ensures Count(Run(NewHost(header, handles, w, ht).host, game, cmds).trace, IsTickerAdd) <= 1
    ensures Count(Run(NewHost(header, handles, w, ht).host, game, cmds).trace, IsErrorLog) <= 2
    ensures Consistent(Run(NewHost(header, handles, w, ht).host, game, cmds).host)
  {
    var h := NewHost(header, handles, w, ht).host;
    TickerAddedAtMostOnce(h, game, cmds);
    FaultLogBound(h, game, cmds);
    RunKeepsConsistent(h, game, cmds);
  }
}

=== FILE: traces.dfy ===
/** Counting and filtering the events of a host trace. */
module Traces {
  import opened HostState

  /** The number of events in `t` that satisfy `p`. */
  function Count(t: seq<Event>, p: Event -> bool): nat
  {
    if |t| == 0 then 0
    else Count(t[..|t| - 1], p) + (if p(t[|t| - 1]) then 1 else 0)
  }

  /** Counting distributes over concatenation of traces. */
  lemma {:induction false} CountAppend(a: seq<Event>, b: seq<Event>, p: Event -> bool)
    ensures Count(a + b, p) == Count(a, p) + Count(b, p)
    decreases |b|
  {
    if |b| == 0 {
      assert a + b == a;
    } else {
      assert (a + b)[..|a + b| - 1] == a + b[..|b| - 1];
      assert (a + b)[|a + b| - 1] == b[|b| - 1];
      CountAppend(a, b[..|b| - 1], p);
    }
  }

  /** An event no element of `t` satisfies is counted zero times, and conversely. */
  lemma {:induction false} CountZero(t: seq<Event>, p: Event -> bool)
    ensures Count(t, p) == 0 <==> forall i :: 0 <= i < |t| ==> !p(t[i])
    decreases |t|
  {
    if |t| > 0 {
      CountZero(t[..|t| - 1], p);
      assert forall i :: 0 <= i < |t| - 1 ==> t[..|t| - 1][i] == t[i];
    }
  }

  /** The count of a one-event trace. */
  lemma CountOne(e: Event, p: Event -> bool)
    ensures Count([e], p) == (if p(e) then 1 else 0)
  {
  }

  /** A property every event of two traces has, every event of their concatenation has. */
  lemma AllAppend(a: seq<Event>, b: seq<Event>, p: Event -> bool)
    requires forall i :: 0 <= i < |a| ==> p(a[i])
    requires forall i :: 0 <= i < |b| ==> p(b[i])
    ensures forall i :: 0 <= i < |a + b| ==> p((a + b)[i])
  {
  }

  predicate IsErrorLog(e: Event) { e.ErrorLogged? }
  predicate IsTickerAdd(e: Event) { e.TickerAdded? }
  predicate IsPlayerTick(e: Event) { e.PlayerTickerCalled? }
  predicate IsGameTick(e: Event) { e.GameTickCalled? }
  predicate FromTick(e: Event) { e.GameTickCalled? || e.ErrorLogged? || e.Draw? }

  /** A trace of a tick's events neither touches the ticker nor reaches the player's ticker. */
  lemma {:induction false} TickEventsOnly(t: seq<Event>)
    requires forall i :: 0 <= i < |t| ==> FromTick(t[i])
    ensures Count(t, IsPlayerTick) == 0 && Count(t, IsTickerAdd) == 0
  {
    CountZero(t, IsPlayerTick);
    CountZero(t, IsTickerAdd);
  }

  /** The draws of a trace, in the order they were issued. */
  function Draws(t: seq<Event>): (d: seq<Event>)
    ensures forall i :: 0 <= i < |d| ==> d[i].Draw?
  {
    if |t| == 0 then []
    else Draws(t[..|t| - 1]) + (if t[|t| - 1].Draw? then [t[|t| - 1]] else [])
  }

  lemma {:induction false} DrawsAppend(a: seq<Event>, b: seq<Event>)
    ensures Draws(a + b) == Draws(a) + Draws(b)
    decreases |b|
  {
    if |b| == 0 {
      assert a + b == a;
    } else {
      assert (a + b)[..|a + b| - 1] == a + b[..|b| - 1];
      assert (a + b)[|a + b| - 1] == b[|b| - 1];
      DrawsAppend(a, b[..|b| - 1]);
    }
  }
}
